=== FILE: README.md ===
# SoloGym progression engine in Dafny

SoloGym is a gamified task tracker. A user ("hunter") completes tasks and
earns their xp reward. Every time the accumulated xp reaches the current
threshold `xpToNextLevel`, the user gains a level and 3 attribute points. The
points are spent on four attributes (strength, endurance, agility, vitality),
and each spend records a snapshot in an attribute history. Three badge rules
run after each completion, and only then: `first_quest` when the caller's
completed count is exactly 1, `level_5` from level 5 and `strength_5` from
strength 5. The client's
status page keeps per-attribute pending counters before sending an allocation.

This project models that engine as pure functions over an abstract store. The
store holds one user record, a map from task id to task, and the
attribute-history collection as a sequence in insertion order. Each request is
one atomic step, and timestamps are opaque values passed in by the caller.

Modules, following the program's files:

- `Wrappers`: `Option` and `Result`.
- `Clock`: opaque timestamps.
- `UserModel` (`server/models/User.js`): the user record, its defaults and the
  threshold curve `xpForLevel`. The curve is exact integer arithmetic:
  `100 * 3^(n-1) / 2^(n-1)` for `n >= 1`. Below 1 it is the floor of the same
  real value, so the function is total.
- `TaskModel` (`server/models/Task.js`): the task record, its enums and the
  schema validation of a new task.
- `HistoryModel` (`server/models/AttributeHistory.js`): the snapshot record.
- `Leveling`: the leveling loop of `server/routes/tasks.js`. It is written once
  as the recursive reference `LevelUp` and once as `RunLoop`, the `while` loop
  as written. The two are proved equal.
- `Badges`: the three badge rules.
- `Storage`: the abstract store and the error kinds.
- `TaskRoutes`: task completion, the filtered task list and task insertion.
- `UserRoutes`: point allocation.
- `NumberParsing`: the part of JavaScript's `parseInt(s, 10)` the history query
  uses.
- `HistoryQuery`: the `limit` parameter and the most-recent-snapshots query.
- `StatusPage` (`client/src/pages/Status.jsx`): the pending-allocation state
  machine, composed with the server's allocation.
- `Sessions`: any sequence of completions, allocations and insertions starting
  from a fresh user, and the invariant every reachable store keeps.

In five places the model follows the code where a reader might expect
otherwise:

- Completing a task writes no attribute-history snapshot. `tasks.js` imports
  the history model but never uses it. Only allocation appends snapshots.
- Allocation never unlocks a badge. A user who raises strength to 5 gets
  `strength_5` only at their next completion.
- `first_quest` needs a completed count of exactly 1. A task inserted already
  completed makes the first real completion see a count of 2, so the badge is
  never granted. `TaskRoutes.EarlierCompletedTaskSkipsFirstQuest` proves this.
- Allocation accepts negative deltas. Only the total is checked against the
  available points.
- A fresh user's threshold is `xpForLevel(1) = 100`. After a level-up to level
  L the threshold is `xpForLevel(L + 1)`, so `xpForLevel(2) = 150` is never
  stored. `Sessions.HealthyNeverStoresSecondThreshold` proves this.

## Model

| member | source | states |
|---|---|---|
| UserModel.NewUser | server/models/User.js:15-20 | a new user is at level 1 with 0 xp, threshold `xpForLevel(1)`, all four attributes 0, 0 points and no badges |
| UserModel.XpForLevel | server/models/User.js:34-37 | the threshold for level `n` is `floor(100 * 1.5^(n-1))`: from level 1 on the largest `q` with `q * 2^(n-1) <= 100 * 3^(n-1)`, and below level 1 the largest `q` with `q * 3^(1-n) <= 100 * 2^(1-n)` |
| UserModel.XpForLevelValues | server/models/User.js:34-37 | the curve gives 100, 150, 225, 337 and 506 for levels 1 to 5 |
| UserModel.XpForLevelAtLeast100 | server/models/User.js:35-37 | every threshold from level 1 on is at least 100, so the loop's thresholds are positive |
| UserModel.XpForLevelStep | server/models/User.js:35-37 | each level's threshold exceeds the previous one by at least 50 |
| UserModel.XpForLevelIncreasing | server/models/User.js:35-37 | the curve is strictly increasing from level 1 on |
| UserModel.Attributes.With | server/models/User.js:4-9 | setting one attribute changes that attribute and leaves the other three as they were |
| TaskModel.ParseTaskType | server/models/Task.js:6 | a recognised `type` string is exactly the spelling of the enum value it names |
| TaskModel.ParseDifficulty | server/models/Task.js:7 | a recognised `difficulty` string is exactly the spelling of the enum value it names |
| TaskModel.EnumSpellingsRoundTrip | server/models/Task.js:6-7 | parsing an enum's spelling gives the enum back, and a string parses exactly when it spells one of the values |
| TaskModel.Violations | server/models/Task.js:5-8 | a path is reported exactly when a name or reward is missing, an enum value is unknown, or the reward is below 0 |
| TaskModel.NewTask | server/models/Task.js:3-13 | a new task is rejected exactly when a constraint is violated, with the violated paths as the error. Otherwise it is well formed, has type `task` and difficulty `medium` by default, and has the given name, reward, deadline and completion fields |
| TaskModel.NewTaskDefaults | server/models/Task.js:6-11 | a task given only a name and a reward is a `task` of `medium` difficulty, not completed, with no completion time |
| HistoryModel.SnapshotOf | server/models/AttributeHistory.js:3-10 | a snapshot carries the user's id, the four attribute values and the time it was recorded |
| Leveling.ConsumedSnoc | server/routes/tasks.js:79-83 | the xp one more level-up consumes is exactly the threshold in force after the level-ups before it |
| Leveling.LevelUp | server/routes/tasks.js:79-85 | the loop's result: it only takes affordable level-ups and conserves xp (start = rest + thresholds consumed). Points grow by 3 per level, the rest is below the final positive threshold, and that threshold is `xpForLevel(level + 1)` after any level-up |
| Leveling.LevelUpUnique | server/routes/tasks.js:79-85 | any number of affordable level-ups that leaves a remainder below the next threshold is exactly the result of the loop |
| Leveling.RunLoop | server/routes/tasks.js:73-85 | the `while` loop as written: `leveledUp` holds iff the level rose, it conserves xp, points grow by 3 per level, and the result equals `LevelUp` |
| Leveling.LevelUpKeepsXpNonNegative | server/routes/tasks.js:79-80 | non-negative xp stays non-negative, because a threshold is only subtracted when xp reaches it |
| Leveling.ZeroRewardIsNoOp | server/routes/tasks.js:73-79 | with xp already below the threshold and no reward, nothing changes |
| Leveling.ExactThresholdLevelsUp | server/routes/tasks.js:79 | reaching the threshold exactly is a level-up that leaves 0 xp |
| Leveling.ThresholdAfterLevelUp | server/routes/tasks.js:83 | after a level-up the stored threshold is `xpForLevel(level + 1)`, never `xpForLevel(level)` |
| Leveling.OneLevelExample | server/routes/tasks.js:73-85 | level 1 with 90 xp and threshold 100, plus a reward of 30, gives level 2, 20 xp, 3 points and threshold 225 |
| Leveling.TwoLevelsExample | server/routes/tasks.js:73-85 | a reward of 350 at level 1 with 0 xp gives two level-ups, 25 xp, 6 points and threshold 337 |
| Badges.Unlock | server/routes/tasks.js:99-101 | a badge is appended exactly when its rule fires and it is not already held. Nothing else changes, and duplicates never appear |
| Badges.Evaluate | server/routes/tasks.js:98-101 | the badge list only grows, by at most 3 badges. `first_quest`, `level_5` and `strength_5` are held iff already held or the count is 1, the level at least 5 or the strength at least 5. Only new, recognised, pairwise distinct badges are appended, so a list without duplicates stays without duplicates |
| Badges.EvaluateIdempotent | server/routes/tasks.js:98-104 | evaluating the rules again under the same conditions adds nothing |
| TaskRoutes.Progressed | server/routes/tasks.js:72-95 | the persisted progression is the loop's result, and id, attributes and badges are untouched |
| TaskRoutes.Complete | server/routes/tasks.js:62-114 | succeeds iff the task is the caller's and not yet completed. It fails with `NotFound` iff the task is not the caller's, and with `AlreadyCompleted` iff it is already completed, in both cases without changing the store. Otherwise it marks the task completed, returns `xpGained` = reward and leaves attributes and history unchanged. The stored xp, level, threshold and points are exactly the leveling loop's result on the old xp plus the reward, and the badges are exactly the badge rules applied to the new completed count, the new level and the strength |
| TaskRoutes.CompletionCountsTheTask | server/routes/tasks.js:68-87 | the completed count the badge rule sees includes the task just saved: exactly one more than before |
| TaskRoutes.FirstCompletionUnlocksFirstQuest | server/routes/tasks.js:87-99 | the caller's first completion unlocks `first_quest` |
| TaskRoutes.EarlierCompletedTaskSkipsFirstQuest | server/routes/tasks.js:87-99 | a completion by a caller who already has a completed task but not `first_quest` succeeds without granting it, because the count it sees is at least 2 |
| TaskRoutes.NoDoubleReward | server/routes/tasks.js:66 | completing the same task again fails with `AlreadyCompleted` and leaves the store, and so xp, level, points and badges, unchanged |
| TaskRoutes.ZeroRewardCompletion | server/routes/tasks.js:73-113 | a zero-reward completion by a user at rest reports no level-up and keeps xp, level, threshold and points |
| TaskRoutes.ListTasks | server/routes/tasks.js:14-18 | the list holds exactly the caller's tasks that pass the filters: `completed=true` selects completed tasks, any other value uncompleted ones, and a non-empty `type` selects that type. With no parameters every task of the caller is listed |
| TaskRoutes.UnknownTypeListsNothing | server/routes/tasks.js:17 | a non-empty `type` outside the enum lists nothing, and an empty one filters nothing |
| TaskRoutes.CompletedTaskIsListedAsCompleted | server/routes/tasks.js:14-17 | a completed task leaves the `completed=false` list and appears in the `completed=true` list |
| TaskRoutes.CreateTask | server/routes/tasks.js:26-32 | an invalid input fails with its violated paths, whether or not the id is taken, because the schema is validated before the insert. A valid input under a taken id fails with `DuplicateId`, and under a fresh id it is inserted and answered as exactly the task the schema builds for the caller. Failures leave the store unchanged |
| UserRoutes.Deltas | server/routes/user.js:34 | each delta is the request's value, or 0 when omitted |
| UserRoutes.Allocate | server/routes/user.js:33-49 | fails, always with `InsufficientPoints`, iff the deltas sum to more than the available points, then changing nothing, and succeeds whenever the total is within them. Otherwise each attribute grows by its own delta and the points drop by the total, staying at 0 or more. Attributes plus points are conserved, everything else is unchanged, and exactly one snapshot of the new attributes is appended |
| UserRoutes.AllocateEverything | server/routes/user.js:36-49 | spending exactly the available points succeeds, leaves 0 points and records the new attributes |
| UserRoutes.EmptyAllocationStillSnapshots | server/routes/user.js:34-49 | an empty request succeeds and answers the unchanged user, leaves user and tasks as they were, and still appends one snapshot of the unchanged attributes |
| NumberParsing.TrimStart | server/routes/user.js:61 | the result is a suffix of the input that does not start with white space, and every character removed is white space |
| NumberParsing.DigitPrefix | server/routes/user.js:61 | the length of the longest run of leading digits |
| NumberParsing.ReadDigits | server/routes/user.js:61 | no number exactly when the text does not start with a digit |
| NumberParsing.ParseTrimmed | server/routes/user.js:61 | after the white space, no number (`NaN`) exactly when the text starts with neither a digit nor a sign followed by a digit |
| NumberParsing.ParseInt | server/routes/user.js:61 | `NaN` exactly when, after the leading white space, the string starts with neither a digit nor a sign followed by a digit |
| NumberParsing.ReadDigitsBeforeNonDigit | server/routes/user.js:61 | digits followed by anything but a digit read as the number the digits spell |
| NumberParsing.ParseIntAfterSpaces | server/routes/user.js:61 | leading white space does not change what is parsed |
| NumberParsing.ParseIntNegative | server/routes/user.js:61 | white space, `-`, digits and a tail that does not start with a digit parse to minus the digits' value |
| NumberParsing.ParseIntPlus | server/routes/user.js:61 | white space, `+`, digits and a tail that does not start with a digit parse to the digits' value |
| NumberParsing.DecimalStringValue | server/routes/user.js:61 | the decimal spelling of `k` reads back as `k` |
| NumberParsing.ParseIntOfDigits | server/routes/user.js:61 | a non-empty string of digits parses to the number it spells |
| NumberParsing.ParseIntSkipsSpaceAndTail | server/routes/user.js:61 | leading white space is skipped and parsing stops at the first non-digit |
| HistoryQuery.HistoryLimit | server/routes/user.js:61-64 | the limit is at least 1. It is 30 when the parameter is absent, unparseable or 0, and otherwise the size of the parsed number |
| HistoryQuery.HistoryLimitOfDecimal | server/routes/user.js:61 | a positive limit written in decimal is taken as given |
| HistoryQuery.HistoryLimitFallbacks | server/routes/user.js:61 | an absent, empty, `"0"` or `"abc"` limit gives 30 |
| HistoryQuery.HistoryLimitStopsAtNonDigit | server/routes/user.js:61 | `" 12abc"` gives 12 |
| HistoryQuery.HistoryLimitOfNegative | server/routes/user.js:61-64 | `"-5"` gives 5 |
| HistoryQuery.UserHistory | server/routes/user.js:62 | exactly the caller's snapshots are selected: each selected one is the caller's and in the history, and each of the caller's snapshots in the history is selected |
| HistoryQuery.UserHistoryKeepsOrder | server/routes/user.js:62-63 | two of the caller's snapshots appear in the selection in the order they were stored |
| HistoryQuery.UserHistoryAppend | server/routes/user.js:62 | selecting from two appended histories is selecting from each and appending the results |
| HistoryQuery.Latest | server/routes/user.js:63-66 | the last `n` elements, or all of them when there are fewer |
| HistoryQuery.RecentHistory | server/routes/user.js:62-66 | the query as performed (newest first, cut at `limit`, reversed) returns the last `limit` of the caller's snapshots, oldest first |
| HistoryQuery.UserHistoryChronological | server/routes/user.js:62-63 | selecting one user's snapshots keeps chronological order |
| HistoryQuery.RecentHistoryIsMostRecent | server/routes/user.js:62-66 | on a chronological history the answer has at most `limit` of the caller's snapshots in ascending time, and none left out is newer than one returned |
| StatusPage.InitialAsWritten | client/src/pages/Status.jsx:16-17 | as written, the page starts with nothing pending and the in-flight flag already set, because an empty object is truthy |
| StatusPage.Initial | client/src/pages/Status.jsx:16-17 | corrected: the page starts with nothing pending and no apply in flight |
| StatusPage.CanAllocate | client/src/pages/Status.jsx:20-22 | when apply is enabled there are points available, so the footer holding the button is shown, and the remaining count it shows is at least 0 and below the available count |
| StatusPage.AddPoint | client/src/pages/Status.jsx:24-27 | a no-op once everything available is pending. Otherwise the named counter and the total each grow by 1, the other counters, the user and the in-flight flag are kept, and validity is preserved |
| StatusPage.RemovePoint | client/src/pages/Status.jsx:29-31 | the named counter drops by 1 but never below 0; the other counters, the user and the in-flight flag are kept, and validity is preserved |
| StatusPage.RequestOf | client/src/pages/Status.jsx:37 | the request sent carries exactly the pending counters as deltas |
| StatusPage.ApplyAllocate | client/src/pages/Status.jsx:33-46 | without `canAllocate` nothing happens. Otherwise the counters go to the allocation handler; on success the page takes the returned user and all counters reset to 0, on rejection the counters are kept, and either way the in-flight flag ends cleared |
| StatusPage.ApplyInSyncSucceeds | client/src/pages/Status.jsx:33-39 | an enabled apply from an in-sync page is never refused: it debits exactly the pending total and appends one snapshot |
| StatusPage.ValidPendingNonNegative | client/src/pages/Status.jsx:20-22 | on a valid page the pending total lies between 0 and the available points |
| StatusPage.EnabledApplyKeepsPageValid | client/src/pages/Status.jsx:33-39 | an enabled apply leaves a valid, in-sync page with nothing pending |
| StatusPage.ZeroPendingIsValid | client/src/pages/Status.jsx:17-20 | a loaded user with non-negative points and nothing pending is a valid page |
| StatusPage.StepKeepsPageValid | client/src/pages/Status.jsx:24-39 | each click keeps the page valid and in sync |
| StatusPage.Step | client/src/pages/Status.jsx:96-127 | a click runs its button's handler: "+" and "−" change only the counters and never reach the server; Apply does nothing while the in-flight flag is set or `canAllocate` is false, and otherwise sends the counters to the allocation handler and ends with the flag cleared |
| StatusPage.RunKeepsPageValid | client/src/pages/Status.jsx:21-39 | any sequence of clicks keeps the page valid and in sync, so the shown remaining points and the server's points never go negative |
| StatusPage.RunWhileAllocating | client/src/pages/Status.jsx:125-129 | while the in-flight flag is set the apply button is disabled: no sequence of clicks changes the server's store, and the flag stays set |
| StatusPage.AsWrittenNeverAllocates | client/src/pages/Status.jsx:16-127 | from the page as written, no sequence of clicks ever changes the server's store |
| StatusPage.AddThenApplyAllocates | client/src/pages/Status.jsx:24-44 | from the corrected first render, "+" on strength then "Apply" with a spare point moves one point into strength and leaves the page in sync with nothing pending |
| Storage.CompletedCount | server/routes/tasks.js:87 | the caller's completed count is at most the number of tasks, and 0 exactly when none of the caller's tasks is completed |
| Sessions.Fresh | server/models/User.js:15-20 | a freshly registered user satisfies the store invariant |
| Sessions.CompleteKeepsHealthy | server/routes/tasks.js:62-104 | completion preserves the invariant: level at least 1, xp between 0 and the threshold, the threshold convention, non-negative points, attributes plus points equal to 3 per level gained, no duplicate badges, well-formed tasks |
| Sessions.AllocateKeepsHealthy | server/routes/user.js:33-49 | allocation preserves the invariant |
| Sessions.CreateKeepsHealthy | server/routes/tasks.js:26-32 | task insertion preserves the invariant |
| Sessions.Step | server/routes/tasks.js:62-104 | one request keeps the store healthy, keeps the user and only extends the badge list |
| Sessions.Run | server/routes/tasks.js:62-104 | any request sequence keeps the store healthy and only extends the badge list |
| Sessions.HealthyNeverStoresSecondThreshold | server/models/User.js:17-36 | a healthy store never holds `xpForLevel(2)` as its threshold |
| Sessions.SessionNeverStores150 | server/routes/tasks.js:83 | whatever a fresh user does, 150 is never stored as the threshold, xp stays below the threshold and no badge is held twice |

## Left out

- MongoDB persistence, connection setup and the seed scripts are replaced by the abstract store. The seed's demo user is not modelled.
- Authentication (JWT, bcrypt) is left out. The caller's user id is given.
- Concurrency is left out. Each request is one atomic step, so lost updates between concurrent completions and the gap between saving the task and updating the user are not modelled.
- Transport and database failures (the 500 answers) are left out. On a rejected apply the page only keeps its counters; the error toast is not modelled.
- UserModel.XpForLevel: `Math.pow` on floats is replaced by the exact integer value. At large levels the floating-point result may differ from it.
- Dates are opaque. The weekly charts, `createdAt` and the sort by `createdAt` in the task list are left out. The list is a set.
- HistoryQuery.RecentHistory: ties in `recordedAt` are not modelled. Insertion order is taken as time order.
- NumberParsing.ParseInt: a limit too large for a double, where `parseInt` loses precision, is not modelled.
- HistoryQuery.HistoryLimit: takes one string per parameter. Express turns a repeated key into an array, which `parseInt` first joins with commas, so `?limit=5&limit=6` gives 5; that conversion is not modelled.
- TaskRoutes.ListTasks: takes one string per parameter. A repeated `type` key reaches `Task.find` as an array, and a repeated `completed` key is an array that never equals `'true'`; neither is modelled.
- UserRoutes.Allocate: deltas are integers. Non-numeric or fractional JSON values, and the string concatenation JavaScript would perform on them, are not modelled.
- TaskModel.NewTask: trimming of `name`, the type check on `deadline`, and a fractional `xpReward` are not modelled.
- TaskRoutes.Complete: requires level at least 1 and a positive stored threshold. Every reachable store meets both (`Sessions.Healthy`, kept by `Sessions.Run`), so no stored user is excluded. The handler's loop would also stop from other states, since each pass raises the level and the next threshold `xpForLevel(level + 1)` grows with it, but what it computes there is not stated.
- Leveling.LevelUp: requires level at least 1 and a positive threshold, which every stored user meets (see the line above). With them the contract can promise a positive final threshold.
- `PUT /:id`, `DELETE /:id` and `GET /:id` on tasks, the profile routes, and the display name, email and password fields are left out. `PUT /:id` can rewrite `completed`, so completion being one-way is not claimed.
- React state batching is left out. Each click is one step of the page, and an apply finishes before the next click, so the in-flight flag only matters through its initial value.

## Findings

| source | as written | input that shows it | evidently intended | confidence | as-written member | corrected member |
|---|---|---|---|---|---|---|
| client/src/pages/Status.jsx:16 | the in-flight flag `allocating` starts as `{}`, which is truthy, and only `applyAllocate` ever resets it | a user with points available opens the page and presses "+": Apply stays disabled (line 127) and labelled "Applying..." (line 129), so no allocation can be sent | the flag starts as `false` (`StatusPage.Initial`), so an enabled Apply reaches the server | high; not executed | StatusPage.AsWrittenNeverAllocates | StatusPage.AddThenApplyAllocates |

=== FILE: badges.dfy ===
/**
 * The three badge rules evaluated after a completion (`server/routes/tasks.js`):
 * each recognised badge is appended, at most once, when its rule fires.
 */
module Badges {

  const FirstQuest := "first_quest"
  const Level5 := "level_5"
  const Strength5 := "strength_5"

  /** No badge appears twice. */
  predicate NoDuplicates(s: seq<string>) {
    forall i, j :: 0 <= i < j < |s| ==> s[i] != s[j]
  }

  /** Appends `badge` when `fires` holds and it is not yet present. */
  function Unlock(badges: seq<string>, fires: bool, badge: string): (r: seq<string>)
    ensures badges <= r && |r| <= |badges| + 1
    ensures badge in r <==> badge in badges || fires
    ensures forall i :: |badges| <= i < |r| ==> r[i] == badge && badge !in badges
    ensures NoDuplicates(badges) ==> NoDuplicates(r)
  {
    if fires && badge !in badges then badges + [badge] else badges
  }

  /**
   * The badge list after a completion: `first_quest` when this is the first
   * completed task, `level_5` from level 5, `strength_5` from strength 5.
   * Existing badges are kept in place; only recognised ones are added.
   */
  function Evaluate(badges: seq<string>, completedCount: int, level: int, strength: int): (r: seq<string>)
    ensures badges <= r && |r| <= |badges| + 3
    ensures FirstQuest in r <==> FirstQuest in badges || completedCount == 1
    ensures Level5 in r <==> Level5 in badges || level >= 5
    ensures Strength5 in r <==> Strength5 in badges || strength >= 5
    ensures forall i :: |badges| <= i < |r| ==> r[i] !in badges && (r[i] == FirstQuest || r[i] == Level5 || r[i] == Strength5)
    ensures forall i, j :: |badges| <= i < j < |r| ==> r[i] != r[j]
    ensures NoDuplicates(badges) ==> NoDuplicates(r)
  {
    var a := Unlock(badges, completedCount == 1, FirstQuest);
    var b := Unlock(a, level >= 5, Level5);
    Unlock(b, strength >= 5, Strength5)
  }

  /** Re-evaluating under the same conditions adds nothing: no badge is ever granted twice. */
  lemma EvaluateIdempotent(badges: seq<string>, completedCount: int, level: int, strength: int)
    ensures var r := Evaluate(badges, completedCount, level, strength);
      Evaluate(r, completedCount, level, strength) == r
  {
  }
}

=== FILE: clock.dfy ===
/** Wall-clock instants, kept opaque: the model only stores and compares them. */
module Clock {

  /** A `Date` value, as milliseconds since the epoch. */
  datatype Timestamp = Timestamp(millis: int)

  predicate NotAfter(a: Timestamp, b: Timestamp) {
    a.millis <= b.millis
  }
}

=== FILE: history_model.dfy ===
/** The attribute-history snapshot of `server/models/AttributeHistory.js`. */
module HistoryModel {
  import opened Clock
  import opened UserModel

  /** One immutable record of a user's four attributes at an instant. */
  datatype Snapshot = Snapshot(userId: UserId, attributes: Attributes, recordedAt: Timestamp)

  /** The snapshot written for `u` at `now`: its id and its current attributes. */
  function SnapshotOf(u: User, now: Timestamp): (s: Snapshot)
    ensures s.userId == u.id && s.recordedAt == now
    ensures forall a :: s.attributes.Get(a) == u.attributes.Get(a)
  {
    Snapshot(u.id, u.attributes, now)
  }
}

=== FILE: history_query.dfy ===
/**
 * The history query of `server/routes/user.js` (`GET /attribute-history`):
 * the limit parameter and the most recent snapshots of the caller.
 */
module HistoryQuery {
  import opened Wrappers
  import opened Clock
  import opened UserModel
  import opened HistoryModel
  import opened NumberParsing

  const DefaultHistoryLimit := 30

  /**
   * The number of snapshots returned: `parseInt(limit) || 30`, where `NaN` and 0
   * fall back to 30 and a negative count asks MongoDB for its absolute value.
   */
  function HistoryLimit(raw: Option<string>): (n: nat)
    ensures n >= 1
    ensures raw.None? ==> n == DefaultHistoryLimit
    ensures raw.Some? && ParseInt(raw.value) in {None, Some(0)} ==> n == DefaultHistoryLimit
    ensures raw.Some? && ParseInt(raw.value).Some? && ParseInt(raw.value) != Some(0) ==>
      n == if ParseInt(raw.value).value < 0 then -ParseInt(raw.value).value else ParseInt(raw.value).value
  {
    var v := if raw.Some? then ParseInt(raw.value) else None;
    if v.None? || v.value == 0 then DefaultHistoryLimit
    else if v.value < 0 then -v.value
    else v.value
  }

  /** A limit written in plain decimal is taken as given. */
  lemma HistoryLimitOfDecimal(k: nat)
    requires k >= 1
    ensures HistoryLimit(Some(DecimalString(k))) == k
  {
    ParseIntOfDigits(DecimalString(k));
    DecimalStringValue(k);
  }

  /** Absent, empty, zero or non-numeric limits fall back to 30. */
  lemma HistoryLimitFallbacks()
    ensures HistoryLimit(None) == 30
    ensures HistoryLimit(Some("")) == 30
    ensures HistoryLimit(Some("0")) == 30
    ensures HistoryLimit(Some("abc")) == 30
  {
    EmptyLimitFallsBack();
    ZeroLimitFallsBack();
    WordLimitFallsBack();
  }

  lemma EmptyLimitFallsBack()
    ensures HistoryLimit(Some("")) == 30
  {
    assert TrimStart("") == "";
  }

  lemma ZeroLimitFallsBack()
    ensures HistoryLimit(Some("0")) == 30
  {
    assert DigitsValue("0") == 0 by {
      assert "0"[..0] == "";
    }
    ParseIntOfDigits("0");
  }

  lemma WordLimitFallsBack()
    ensures HistoryLimit(Some("abc")) == 30
  {
    assert "abc"[0] == 'a' && !IsSpace('a');
    assert TrimStart("abc") == "abc";
  }

  /** Parsing stops at the first non-digit: " 12abc" gives 12. */
  lemma HistoryLimitStopsAtNonDigit()
    ensures HistoryLimit(Some(" 12abc")) == 12
  {
    assert DigitsValue("12") == 12 by {
      assert "12"[..1] == "1";
      assert "1"[..0] == "";
    }
    assert " 12abc" == " " + ("12" + "abc");
    ParseIntSkipsSpaceAndTail(" ", "12", "abc");
    assert ParseInt(" 12abc") == Some(12);
  }

  /** A negative count is taken by its size: "-5" gives 5. */
  lemma HistoryLimitOfNegative()
    ensures HistoryLimit(Some("-5")) == 5
  {
    assert DigitsValue("5") == 5 by {
      assert "5"[..0] == "";
    }
    assert "-5" == [] + (['-'] + ("5" + []));
    ParseIntNegative([], "5", []);
    assert ParseInt("-5") == Some(-5);
  }

  /** The snapshots of user `uid`, in stored order. */
  function UserHistory(h: seq<Snapshot>, uid: UserId): (r: seq<Snapshot>)
    ensures |r| <= |h|
    ensures forall x :: x in r ==> x in h && x.userId == uid
    ensures forall x :: x in h && x.userId == uid ==> x in r
  {
    if h == [] then []
    else (if h[0].userId == uid then [h[0]] else []) + UserHistory(h[1..], uid)
  }

  lemma {:induction false} UserHistoryAppend(a: seq<Snapshot>, b: seq<Snapshot>, uid: UserId)
    ensures UserHistory(a + b, uid) == UserHistory(a, uid) + UserHistory(b, uid)
  {
    if a == [] {
      assert a + b == b;
    } else {
      assert (a + b)[0] == a[0];
      assert (a + b)[1..] == a[1..] + b;
      UserHistoryAppend(a[1..], b, uid);
    }
  }

  /** Two of the caller's snapshots appear in the filtered history in the order they were stored. */
  lemma {:induction false} UserHistoryKeepsOrder(h: seq<Snapshot>, uid: UserId, i: nat, j: nat)
    requires i < j < |h| && h[i].userId == uid && h[j].userId == uid
    ensures exists k, l :: 0 <= k < l < |UserHistory(h, uid)| && UserHistory(h, uid)[k] == h[i] && UserHistory(h, uid)[l] == h[j]
  {
    var front, back := h[..j], h[j..];
    assert h == front + back;
    UserHistoryAppend(front, back, uid);
    var p := UserHistory(front, uid);
    assert front[i] == h[i] && front[i] in front;
    var k :| 0 <= k < |p| && p[k] == h[i];
    UserHistoryStartsWith(back, uid);
    var r := UserHistory(h, uid);
    assert r == p + UserHistory(back, uid);
    assert r[k] == h[i] && r[|p|] == h[j];
  }

  /** A history that starts with one of the caller's snapshots keeps it first. */
  lemma UserHistoryStartsWith(h: seq<Snapshot>, uid: UserId)
    requires h != [] && h[0].userId == uid
    ensures UserHistory(h, uid) != [] && UserHistory(h, uid)[0] == h[0]
  {
  }

  /** The last `n` elements of `s`, or all of `s` when it is shorter. */
  function Latest<T>(s: seq<T>, n: nat): (r: seq<T>)
    ensures |r| == if |s| <= n then |s| else n
    ensures r == s[|s| - |r|..]
  {
    if |s| <= n then s else s[|s| - n..]
  }

  /**
   * The history query as the handler performs it: walk the snapshots from the
   * most recent backwards, keep the caller's until `limit` are found, and hand
   * them back oldest first.
   */
  method RecentHistory(h: seq<Snapshot>, uid: UserId, limit: nat) returns (r: seq<Snapshot>)
    ensures r == Latest(UserHistory(h, uid), limit)
  {
    var i := |h|;
    r := [];
    while i > 0 && |r| < limit
      invariant 0 <= i <= |h|
      invariant r == Latest(UserHistory(h[i..], uid), limit)
      decreases i
    {
      var rest := UserHistory(h[i..], uid);
      assert r == rest;
      assert h[i - 1..] == [h[i - 1]] + h[i..];
      UserHistoryAppend([h[i - 1]], h[i..], uid);
      if h[i - 1].userId == uid {
        r := [h[i - 1]] + r;
      }
      i := i - 1;
    }
    assert h == h[..i] + h[i..];
    UserHistoryAppend(h[..i], h[i..], uid);
    LatestOfLongSuffix(UserHistory(h[..i], uid), UserHistory(h[i..], uid), limit);
  }

  /** Once a suffix holds `n` elements, what precedes it does not change the last `n`. */
  lemma LatestOfLongSuffix<T>(p: seq<T>, t: seq<T>, n: nat)
    requires |t| >= n || p == []
    ensures Latest(p + t, n) == Latest(t, n)
  {
    if p == [] {
      assert p + t == t;
    }
  }

  /** History ordered by time: each snapshot recorded no later than the next. */
  predicate Chronological(h: seq<Snapshot>) {
    forall i, j :: 0 <= i < j < |h| ==> NotAfter(h[i].recordedAt, h[j].recordedAt)
  }

  lemma {:induction false} UserHistoryChronological(h: seq<Snapshot>, uid: UserId)
    requires Chronological(h)
    ensures Chronological(UserHistory(h, uid))
  {
    if h != [] {
      UserHistoryChronological(h[1..], uid);
      var rest := UserHistory(h[1..], uid);
      forall x | x in rest
        ensures NotAfter(h[0].recordedAt, x.recordedAt)
      {
        var k :| 1 <= k < |h| && h[k] == x;
      }
    }
  }

  /**
   * On a chronological history the query answers at most `limit` of the
   * caller's snapshots, oldest first, and none it leaves out is more recent
   * than one it returns.
   */
  lemma RecentHistoryIsMostRecent(h: seq<Snapshot>, uid: UserId, limit: nat)
    requires Chronological(h)
    ensures var all, r := UserHistory(h, uid), Latest(UserHistory(h, uid), limit);
      && |r| <= limit
      && (forall x :: x in r ==> x.userId == uid)
      && Chronological(r)
      && forall i, j :: 0 <= i < |all| - |r| && 0 <= j < |r| ==> NotAfter(all[i].recordedAt, r[j].recordedAt)
  {
    var all := UserHistory(h, uid);
    UserHistoryChronological(h, uid);
    var r := Latest(all, limit);
    forall i, j | 0 <= i < |all| - |r| && 0 <= j < |r|
      ensures NotAfter(all[i].recordedAt, r[j].recordedAt)
    {
      assert r[j] == all[|all| - |r| + j];
    }
  }
}

=== FILE: leveling.dfy ===
/**
 * The leveling loop of the task-completion handler (`server/routes/tasks.js`):
 * while the accumulated xp reaches the current threshold, consume the
 * threshold, gain a level and 3 points, and take `xpForLevel(level + 1)` as the
 * next threshold.
 */
module Leveling {
  import opened UserModel

  /** The progression fields the loop rewrites. */
  datatype Progress = Progress(xp: int, level: int, xpToNextLevel: int, availablePoints: int)

  /** Points granted per level gained. */
  const PointsPerLevel := 3

  /**
   * The states the loop is modelled from: level 1 or more and a positive
   * threshold. Every stored user is in one (`Sessions.Healthy`), and from them
   * each pass consumes a positive amount of xp.
   */
  predicate CanLevel(level: int, threshold: int) {
    level >= 1 && threshold > 0
  }

  /** The threshold in force after `k` level-ups starting from `level` with threshold `t`. */
  function ThresholdAfter(t: int, level: int, k: nat): int {
    if k == 0 then t else XpForLevel(level + k + 1)
  }

  /** The xp consumed by the first `k` level-ups starting from `level` with threshold `t`. */
  function Consumed(t: int, level: int, k: nat): int
    decreases k
  {
    if k == 0 then 0 else t + Consumed(XpForLevel(level + 2), level + 1, k - 1)
  }

  /** Consuming one more level takes exactly the threshold in force after the first `k`. */
  lemma {:induction false} ConsumedSnoc(t: int, level: int, k: nat)
    decreases k
    ensures Consumed(t, level, k + 1) == Consumed(t, level, k) + ThresholdAfter(t, level, k)
  {
    if k > 0 {
      ConsumedSnoc(XpForLevel(level + 2), level + 1, k - 1);
    }
  }

  /**
   * Resolves every level-up that `xp` pays for. The result is characterised
   * without reference to the loop: it has taken `k = level' - level` level-ups,
   * each of which the accumulated xp could pay for at the time, and the
   * remainder cannot pay for the next one.
   */
  function LevelUp(xp: int, level: int, threshold: int, points: int): (r: Progress)
    requires CanLevel(level, threshold)
    decreases xp
    ensures r.level >= level
    ensures r.availablePoints == points + PointsPerLevel * (r.level - level)
    ensures xp == r.xp + Consumed(threshold, level, r.level - level)
    ensures forall j: nat :: 0 < j <= r.level - level ==> Consumed(threshold, level, j) <= xp
    ensures r.xpToNextLevel == ThresholdAfter(threshold, level, r.level - level)
    ensures r.xp < r.xpToNextLevel && r.xpToNextLevel > 0
  {
    if xp >= threshold then
      XpForLevelAtLeast100(level + 2);
      var r := LevelUp(xp - threshold, level + 1, XpForLevel(level + 2), points + PointsPerLevel);
      r
    else
      Progress(xp, level, threshold, points)
  }

  /**
   * The characterisation pins the result down: any number `k` of level-ups that
   * were each affordable, leaving a remainder below the next threshold, is the
   * one `LevelUp` performs.
   */
  lemma LevelUpUnique(total: int, level: int, threshold: int, points: int, k: nat, rem: int)
    requires CanLevel(level, threshold)
    requires total == rem + Consumed(threshold, level, k)
    requires forall j: nat :: 0 < j <= k ==> Consumed(threshold, level, j) <= total
    requires rem < ThresholdAfter(threshold, level, k)
    ensures LevelUp(total, level, threshold, points)
         == Progress(rem, level + k, ThresholdAfter(threshold, level, k), points + PointsPerLevel * k)
  {
    var r := LevelUp(total, level, threshold, points);
    ConsumedSnoc(threshold, level, k);
    ConsumedSnoc(threshold, level, r.level - level);
    assert r.level - level == k;
  }

  /**
   * The loop exactly as the handler runs it, starting from the stored user
   * fields and the task's reward: it only ever takes affordable level-ups,
   * conserves xp, and computes what `LevelUp` specifies.
   */
  method RunLoop(xp: int, reward: int, level: int, threshold: int, points: int)
    returns (newXp: int, newLevel: int, xpToNextLevel: int, availablePoints: int, leveledUp: bool)
    requires CanLevel(level, threshold)
    ensures newLevel >= level && (leveledUp <==> newLevel > level)
    ensures xp + reward == newXp + Consumed(threshold, level, newLevel - level)
    ensures availablePoints == points + PointsPerLevel * (newLevel - level)
    ensures Progress(newXp, newLevel, xpToNextLevel, availablePoints) == LevelUp(xp + reward, level, threshold, points)
  {
    newXp := xp + reward;
    newLevel := level;
    xpToNextLevel := threshold;
    leveledUp := false;
    availablePoints := points;
    while newXp >= xpToNextLevel
      invariant newLevel >= level && CanLevel(newLevel, xpToNextLevel)
      invariant leveledUp <==> newLevel > level
      invariant xp + reward == newXp + Consumed(threshold, level, newLevel - level)
      invariant forall j: nat :: 0 < j <= newLevel - level ==> Consumed(threshold, level, j) <= xp + reward
      invariant xpToNextLevel == ThresholdAfter(threshold, level, newLevel - level)
      invariant availablePoints == points + PointsPerLevel * (newLevel - level)
      decreases newXp
    {
      ConsumedSnoc(threshold, level, newLevel - level);
      XpForLevelAtLeast100(newLevel + 2);
      newXp := newXp - xpToNextLevel;
      newLevel := newLevel + 1;
      availablePoints := availablePoints + 3;
      xpToNextLevel := XpForLevel(newLevel + 1);
      leveledUp := true;
    }
    LevelUpUnique(xp + reward, level, threshold, points, newLevel - level, newXp);
  }

  /** Level-ups are only taken when affordable, so non-negative xp stays non-negative. */
  lemma LevelUpKeepsXpNonNegative(xp: int, level: int, threshold: int, points: int)
    requires CanLevel(level, threshold) && xp >= 0
    ensures LevelUp(xp, level, threshold, points).xp >= 0
  {
    var r := LevelUp(xp, level, threshold, points);
    if r.level > level {
      assert Consumed(threshold, level, r.level - level) <= xp;
    }
  }

  /** A user at rest that gains nothing is left exactly as it was. */
  lemma ZeroRewardIsNoOp(xp: int, level: int, threshold: int, points: int)
    requires CanLevel(level, threshold) && xp < threshold
    ensures LevelUp(xp, level, threshold, points) == Progress(xp, level, threshold, points)
  {
  }

  /** Reaching the threshold exactly is a level-up, with nothing left over. */
  lemma ExactThresholdLevelsUp(level: int, threshold: int, points: int)
    requires CanLevel(level, threshold)
    ensures LevelUp(threshold, level, threshold, points).level == level + 1
    ensures LevelUp(threshold, level, threshold, points).xp == 0
  {
    XpForLevelAtLeast100(level + 2);
  }

  /** After at least one level-up the stored threshold is `xpForLevel(level' + 1)`, never the skipped `xpForLevel(level')`. */
  lemma ThresholdAfterLevelUp(xp: int, level: int, threshold: int, points: int)
    requires CanLevel(level, threshold)
    ensures var r := LevelUp(xp, level, threshold, points);
      r.level > level ==> r.xpToNextLevel == XpForLevel(r.level + 1) && r.xpToNextLevel != XpForLevel(r.level)
  {
    var r := LevelUp(xp, level, threshold, points);
    if r.level > level {
      XpForLevelIncreasing(r.level, r.level + 1);
    }
  }

  /** Level 1, xp 90, threshold 100, reward 30: level 2 with 20 xp, 3 more points, next threshold 225. */
  lemma OneLevelExample()
    ensures LevelUp(90 + 30, 1, 100, 0) == Progress(20, 2, 225, 3)
  {
    XpForLevelValues();
    XpForLevelAtLeast100(3);
  }

  /** Level 1, xp 0, reward 350: two level-ups in one call (100 then 225), 25 xp left, threshold 337. */
  lemma TwoLevelsExample()
    ensures LevelUp(0 + 350, 1, 100, 0) == Progress(25, 3, 337, 6)
  {
    XpForLevelValues();
    assert LevelUp(250, 2, 225, 3) == LevelUp(25, 3, 337, 6);
  }
}

=== FILE: number_parsing.dfy ===
/**
 * The part of JavaScript's `parseInt(s, 10)` the history query relies on:
 * leading white space, an optional sign, then the longest run of decimal digits.
 */
module NumberParsing {
  import opened Wrappers

  /**
   * The characters `parseInt` skips before the number: ECMAScript's white space
   * (tab, vertical tab, form feed, the byte-order mark and every space
   * separator of Unicode category Zs) and its line terminators.
   */
  predicate IsSpace(c: char) {
    || c == '\t' || c == '\U{000B}' || c == '\U{000C}' || c == '\U{FEFF}'
    || c == ' ' || c == '\U{00A0}' || c == '\U{1680}' || '\U{2000}' <= c <= '\U{200A}'
    || c == '\U{202F}' || c == '\U{205F}' || c == '\U{3000}'
    || c == '\n' || c == '\r' || c == '\U{2028}' || c == '\U{2029}'
  }

  predicate IsDigit(c: char) {
    '0' <= c <= '9'
  }

  function DigitValue(c: char): nat
    requires IsDigit(c)
  {
    c as int - '0' as int
  }

  /** `s` without its leading white space. */
  function TrimStart(s: string): (r: string)
    ensures |r| <= |s| && r == s[|s| - |r|..]
    ensures r == [] || !IsSpace(r[0])
    ensures forall i :: 0 <= i < |s| - |r| ==> IsSpace(s[i])
  {
    if s != [] && IsSpace(s[0]) then TrimStart(s[1..]) else s
  }

  /** The length of the longest all-digit prefix of `s`. */
  function DigitPrefix(s: string): (n: nat)
    ensures n <= |s|
    ensures forall i :: 0 <= i < n ==> IsDigit(s[i])
    ensures n < |s| ==> !IsDigit(s[n])
  {
    if s != [] && IsDigit(s[0]) then 1 + DigitPrefix(s[1..]) else 0
  }

  /** The number an all-digit string spells in base 10. */
  function DigitsValue(ds: string): nat
    requires forall i :: 0 <= i < |ds| ==> IsDigit(ds[i])
  {
    if ds == [] then 0 else 10 * DigitsValue(ds[..|ds| - 1]) + DigitValue(ds[|ds| - 1])
  }

  /** The run of leading digits read as a number; `None` when `b` does not start with a digit. */
  function ReadDigits(b: string): (r: Option<nat>)
    ensures r.None? <==> b == [] || !IsDigit(b[0])
  {
    var n := DigitPrefix(b);
    if n == 0 then None else Some(DigitsValue(b[..n]))
  }

  /** `t` starts with a digit, or with a sign followed by a digit. */
  predicate StartsNumber(t: string) {
    || (t != [] && IsDigit(t[0]))
    || (|t| >= 2 && (t[0] == '-' || t[0] == '+') && IsDigit(t[1]))
  }

  /** `parseInt` after the white space: an optional sign, then the run of digits; no digits is `NaN`, here `None`. */
  function ParseTrimmed(t: string): (r: Option<int>)
    ensures r.None? <==> !StartsNumber(t)
  {
    if t != [] && (t[0] == '-' || t[0] == '+') then
      match ReadDigits(t[1..])
      case None => None
      case Some(v) => Some(if t[0] == '-' then -(v as int) else v as int)
    else
      match ReadDigits(t)
      case None => None
      case Some(v) => Some(v as int)
  }

  /** `parseInt(s, 10)`: skip leading white space, then read a signed decimal number; `None` is `NaN`. */
  function ParseInt(s: string): (r: Option<int>)
    ensures r.None? <==> !StartsNumber(TrimStart(s))
  {
    ParseTrimmed(TrimStart(s))
  }

  /** The base-10 spelling of `k`, without sign or leading zeros. */
  function DecimalString(k: nat): (s: string)
    ensures s != [] && forall i :: 0 <= i < |s| ==> IsDigit(s[i])
  {
    if k < 10 then ['0' + k as char] else DecimalString(k / 10) + ['0' + (k % 10) as char]
  }

  lemma {:induction false} DecimalStringValue(k: nat)
    ensures DigitsValue(DecimalString(k)) == k
  {
    if k >= 10 {
      var s := DecimalString(k);
      assert s[..|s| - 1] == DecimalString(k / 10);
      DecimalStringValue(k / 10);
    }
  }

  lemma {:induction false} DigitPrefixBeforeNonDigit(ds: string, tail: string)
    requires forall i :: 0 <= i < |ds| ==> IsDigit(ds[i])
    requires tail == [] || !IsDigit(tail[0])
    ensures DigitPrefix(ds + tail) == |ds|
  {
    if ds == [] {
      assert ds + tail == tail;
    } else {
      assert (ds + tail)[0] == ds[0];
      assert (ds + tail)[1..] == ds[1..] + tail;
      DigitPrefixBeforeNonDigit(ds[1..], tail);
    }
  }

  /** Digits followed by anything but a digit read as the number the digits spell. */
  lemma {:induction false} ReadDigitsBeforeNonDigit(ds: string, tail: string)
    requires ds != [] && forall i :: 0 <= i < |ds| ==> IsDigit(ds[i])
    requires tail == [] || !IsDigit(tail[0])
    ensures ReadDigits(ds + tail) == Some(DigitsValue(ds))
  {
    DigitPrefixBeforeNonDigit(ds, tail);
    assert (ds + tail)[..|ds|] == ds;
  }

  /** Leading white space does not change what is parsed. */
  lemma {:induction false} ParseIntAfterSpaces(sp: string, t: string)
    requires forall i :: 0 <= i < |sp| ==> IsSpace(sp[i])
    requires t == [] || !IsSpace(t[0])
    ensures ParseInt(sp + t) == ParseTrimmed(t)
  {
    TrimStartSpaces(sp, t);
  }

  /** Without a sign the number is the leading run of digits. */
  lemma ParseTrimmedUnsigned(t: string, v: nat)
    requires t != [] && t[0] != '-' && t[0] != '+' && ReadDigits(t) == Some(v)
    ensures ParseTrimmed(t) == Some(v as int)
  {
  }

  /** After a sign the number is the run of digits that follows, negated for `-`. */
  lemma ParseTrimmedSigned(t: string, v: nat)
    requires t != [] && (t[0] == '-' || t[0] == '+') && ReadDigits(t[1..]) == Some(v)
    ensures t[0] == '-' ==> ParseTrimmed(t) == Some(-(v as int))
    ensures t[0] == '+' ==> ParseTrimmed(t) == Some(v as int)
  {
  }

  /** Leading white space is skipped, and parsing stops at the first character that is not a digit. */
  lemma {:induction false} ParseIntSkipsSpaceAndTail(sp: string, ds: string, tail: string)
    requires forall i :: 0 <= i < |sp| ==> IsSpace(sp[i])
    requires ds != [] && forall i :: 0 <= i < |ds| ==> IsDigit(ds[i])
    requires tail == [] || !IsDigit(tail[0])
    ensures ParseInt(sp + (ds + tail)) == Some(DigitsValue(ds))
  {
    var t := ds + tail;
    assert t[0] == ds[0] && IsDigit(t[0]) && !IsSpace(t[0]);
    ParseIntAfterSpaces(sp, t);
    ReadDigitsBeforeNonDigit(ds, tail);
    ParseTrimmedUnsigned(t, DigitsValue(ds));
  }

  /** A `-` before a run of digits negates the number the digits spell. */
  lemma {:induction false} ParseTrimmedMinus(b: string, v: nat)
    requires ReadDigits(b) == Some(v)
    ensures ParseTrimmed(['-'] + b) == Some(-(v as int))
  {
    assert (['-'] + b)[1..] == b;
  }

  /** A `-` before digits followed by anything but a digit negates the number the digits spell. */
  lemma {:induction false} ParseTrimmedNegative(ds: string, tail: string)
    requires ds != [] && forall i :: 0 <= i < |ds| ==> IsDigit(ds[i])
    requires tail == [] || !IsDigit(tail[0])
    ensures ParseTrimmed(['-'] + (ds + tail)) == Some(-(DigitsValue(ds) as int))
  {
    ReadDigitsBeforeNonDigit(ds, tail);
    ParseTrimmedMinus(ds + tail, DigitsValue(ds));
  }

  /** A `-` between the white space and the digits negates the number. */
  lemma {:induction false} ParseIntNegative(sp: string, ds: string, tail: string)
    requires forall i :: 0 <= i < |sp| ==> IsSpace(sp[i])
    requires ds != [] && forall i :: 0 <= i < |ds| ==> IsDigit(ds[i])
    requires tail == [] || !IsDigit(tail[0])
    ensures ParseInt(sp + (['-'] + (ds + tail))) == Some(-(DigitsValue(ds) as int))
  {
    var t := ['-'] + (ds + tail);
    assert t[0] == '-' && !IsSpace(t[0]);
    ParseIntAfterSpaces(sp, t);
    ParseTrimmedNegative(ds, tail);
  }

  /** A `+` between the white space and the digits keeps the number. */
  lemma {:induction false} ParseIntPlus(sp: string, ds: string, tail: string)
    requires forall i :: 0 <= i < |sp| ==> IsSpace(sp[i])
    requires ds != [] && forall i :: 0 <= i < |ds| ==> IsDigit(ds[i])
    requires tail == [] || !IsDigit(tail[0])
    ensures ParseInt(sp + (['+'] + (ds + tail))) == Some(DigitsValue(ds))
  {
    var t := ['+'] + (ds + tail);
    assert t[0] == '+' && !IsSpace(t[0]);
    assert t[1..] == ds + tail;
    ParseIntAfterSpaces(sp, t);
    ReadDigitsBeforeNonDigit(ds, tail);
    ParseTrimmedSigned(t, DigitsValue(ds));
  }

  /** A non-empty run of digits parses to the number it spells. */
  lemma {:induction false} ParseIntOfDigits(s: string)
    requires s != [] && forall i :: 0 <= i < |s| ==> IsDigit(s[i])
    ensures ParseInt(s) == Some(DigitsValue(s))
  {
    assert [] + s == s && s + [] == s;
    ParseIntAfterSpaces([], s);
    ReadDigitsBeforeNonDigit(s, []);
    ParseTrimmedUnsigned(s, DigitsValue(s));
  }

  lemma {:induction false} TrimStartSpaces(sp: string, s: string)
    requires forall i :: 0 <= i < |sp| ==> IsSpace(sp[i])
    requires s == [] || !IsSpace(s[0])
    ensures TrimStart(sp + s) == s
  {
    if sp == [] {
      assert sp + s == s;
    } else {
      assert (sp + s)[0] == sp[0];
      assert (sp + s)[1..] == sp[1..] + s;
      TrimStartSpaces(sp[1..], s);
    }
  }
}

=== FILE: sessions.dfy ===
/**
 * A session of one user against the server: the requests of
 * `server/routes/tasks.js` and `server/routes/user.js` that change the store,
 * applied one at a time from a freshly registered user. The invariant
 * `Healthy` collects what every reachable store satisfies.
 */
module Sessions {
  import opened Clock
  import opened UserModel
  import opened TaskModel
  import opened Leveling
  import opened Badges
  import opened Storage
  import opened TaskRoutes
  import opened UserRoutes

  /** A request that can change the store. */
  datatype Request =
    | FinishTask(id: TaskId, now: Timestamp)
    | SpendPoints(req: AllocationRequest, now: Timestamp)
    | AddTask(id: TaskId, input: TaskInput, now: Timestamp)

  /**
   * The threshold a user at `level` holds: the schema default `xpForLevel(1)`
   * until the first level-up, `xpForLevel(level + 1)` after it.
   */
  function StoredThreshold(level: int): int {
    if level == 1 then XpForLevel(1) else XpForLevel(level + 1)
  }

  /** What every store reachable from a fresh user satisfies. */
  predicate Healthy(s: Store) {
    && s.user.level >= 1
    && 0 <= s.user.xp < s.user.xpToNextLevel
    && s.user.xpToNextLevel == StoredThreshold(s.user.level)
    && s.user.availablePoints >= 0
    && s.user.attributes.Total() + s.user.availablePoints == PointsPerLevel * (s.user.level - 1)
    && NoDuplicates(s.user.badges)
    && forall id :: id in s.tasks ==> WellFormed(s.tasks[id])
  }

  /** A freshly registered user with no tasks and no history. */
  function Fresh(uid: UserId): (s: Store)
    ensures Healthy(s)
  {
    XpForLevelAtLeast100(1);
    Store(NewUser(uid), map[], [])
  }

  /** Completing a task, successfully or not, keeps the store healthy. */
  lemma CompleteKeepsHealthy(s: Store, id: TaskId, now: Timestamp)
    requires Healthy(s)
    ensures Healthy(Complete(s, id, now).store)
  {
    var r := Complete(s, id, now);
    if r.result.Success? {
      var u, t := s.user, s.tasks[id];
      var lv := Progressed(u, t.xpReward);
      assert r.store.user == lv.(badges := Evaluate(u.badges, CompletedCount(r.store.tasks, u.id), lv.level, u.attributes.strength));
      LevelUpKeepsXpNonNegative(u.xp + t.xpReward, u.level, u.xpToNextLevel, u.availablePoints);
      assert WellFormed(r.store.tasks[id]);
    }
  }

  /** Spending points, successfully or not, keeps the store healthy. */
  lemma AllocateKeepsHealthy(s: Store, req: AllocationRequest, now: Timestamp)
    requires Healthy(s)
    ensures Healthy(Allocate(s, req, now).store)
  {
  }

  /** Inserting a task, successfully or not, keeps the store healthy. */
  lemma CreateKeepsHealthy(s: Store, id: TaskId, input: TaskInput, now: Timestamp)
    requires Healthy(s)
    ensures Healthy(CreateTask(s, id, input, now).store)
  {
  }

  /** The store after one request. */
  function Step(s: Store, req: Request): (s': Store)
    requires Healthy(s)
    ensures Healthy(s')
    ensures s'.user.id == s.user.id && s.user.badges <= s'.user.badges
  {
    match req
    case FinishTask(id, now) => CompleteKeepsHealthy(s, id, now); Complete(s, id, now).store
    case SpendPoints(r, now) => AllocateKeepsHealthy(s, r, now); Allocate(s, r, now).store
    case AddTask(id, input, now) => CreateKeepsHealthy(s, id, input, now); CreateTask(s, id, input, now).store
  }

  /** The store after a sequence of requests, in order. */
  function Run(s: Store, reqs: seq<Request>): (s': Store)
    requires Healthy(s)
    ensures Healthy(s')
    ensures s'.user.id == s.user.id && s.user.badges <= s'.user.badges
    decreases |reqs|
  {
    if reqs == [] then s else Run(Step(s, reqs[0]), reqs[1..])
  }

  /** A healthy store never holds `xpForLevel(2)` as its threshold: level 1 holds 100, later levels skip to 225 and up. */
  lemma HealthyNeverStoresSecondThreshold(s: Store)
    requires Healthy(s)
    ensures s.user.xpToNextLevel != XpForLevel(2)
  {
    if s.user.level == 1 {
      XpForLevelIncreasing(1, 2);
    } else {
      XpForLevelIncreasing(2, s.user.level + 1);
    }
  }

  /** Whatever a fresh user does, 150 is never the stored threshold, xp stays below it, and no badge is held twice. */
  lemma SessionNeverStores150(uid: UserId, reqs: seq<Request>)
    ensures Run(Fresh(uid), reqs).user.xpToNextLevel != 150
    ensures 0 <= Run(Fresh(uid), reqs).user.xp < Run(Fresh(uid), reqs).user.xpToNextLevel
    ensures NoDuplicates(Run(Fresh(uid), reqs).user.badges)
  {
    XpForLevelValues();
    HealthyNeverStoresSecondThreshold(Run(Fresh(uid), reqs));
  }
}

=== FILE: status_page.dfy ===
/**
 * The point-allocation state of the status page (`client/src/pages/Status.jsx`):
 * four pending counters, raised and lowered one at a time, and an apply action
 * that sends them to the allocation handler and clears them when it succeeds.
 */
module StatusPage {
  import opened Wrappers
  import opened Clock
  import opened UserModel
  import opened Storage
  import opened UserRoutes

  /**
   * What the page holds: the signed-in user (if loaded), the pending counters,
   * and whether an apply is in flight, which disables the apply button.
   */
  datatype View = View(user: Option<User>, pending: Attributes, allocating: bool)

  /**
   * The page as the component first renders it: nothing pending, but the
   * in-flight flag starts as an empty object, which JavaScript treats as true.
   */
  function InitialAsWritten(user: Option<User>): (v: View)
    ensures forall a :: v.pending.Get(a) == 0
    ensures v.allocating
  {
    View(user, ZeroAttributes, true)
  }

  /** The page as first rendered for `user`: nothing pending and no apply in flight. */
  function Initial(user: Option<User>): (v: View)
    ensures forall a :: v.pending.Get(a) == 0
    ensures !v.allocating
  {
    View(user, ZeroAttributes, false)
  }

  /** The user's unspent points, 0 while no user is loaded. */
  function Available(v: View): int {
    if v.user.Some? then v.user.value.availablePoints else 0
  }

  function TotalPending(v: View): int {
    v.pending.Total()
  }

  /** The points shown as still available. */
  function Remaining(v: View): int {
    Available(v) - TotalPending(v)
  }

  /**
   * Something is pending and it fits in the available points. Then there are
   * points to show, so the footer that holds the apply button is on screen,
   * and the remaining count it shows is below the available count and not negative.
   */
  function CanAllocate(v: View): (b: bool)
    ensures b ==> Available(v) > 0
    ensures b ==> 0 <= Remaining(v) < Available(v)
  {
    0 < TotalPending(v) <= Available(v)
  }

  /** Counters are never negative and never ask for more than is available. */
  predicate Valid(v: View) {
    (forall a :: v.pending.Get(a) >= 0) && TotalPending(v) <= Available(v)
  }

  /** "+" on attribute `a`: one more pending point, unless all available points are already pending. */
  function AddPoint(v: View, a: Attr): (r: View)
    ensures r == v.(pending := r.pending)
    ensures TotalPending(v) >= Available(v) ==> r == v
    ensures TotalPending(v) < Available(v) ==>
      r.pending.Get(a) == v.pending.Get(a) + 1 && TotalPending(r) == TotalPending(v) + 1
    ensures forall b :: b != a ==> r.pending.Get(b) == v.pending.Get(b)
    ensures Valid(v) ==> Valid(r)
  {
    if TotalPending(v) >= Available(v) then v
    else v.(pending := v.pending.With(a, v.pending.Get(a) + 1))
  }

  /** "-" on attribute `a`: one pending point fewer, never below 0. */
  function RemovePoint(v: View, a: Attr): (r: View)
    ensures r == v.(pending := r.pending)
    ensures r.pending.Get(a) >= 0
    ensures v.pending.Get(a) > 0 ==> r.pending.Get(a) == v.pending.Get(a) - 1
    ensures v.pending.Get(a) == 0 ==> r.pending.Get(a) == 0
    ensures forall b :: b != a ==> r.pending.Get(b) == v.pending.Get(b)
    ensures Valid(v) ==> Valid(r) && TotalPending(r) <= TotalPending(v)
  {
    var p := v.pending.Get(a) - 1;
    v.(pending := v.pending.With(a, if p > 0 then p else 0))
  }

  /** The request body sent on apply: all four counters. */
  function RequestOf(p: Attributes): (req: AllocationRequest)
    ensures Deltas(req) == p
  {
    AllocationRequest(Some(p.strength), Some(p.endurance), Some(p.agility), Some(p.vitality))
  }

  /**
   * "Apply": without `CanAllocate` nothing happens and nothing is sent; otherwise
   * the pending counters go to the allocation handler, and on success the page
   * takes the returned user and clears the counters, while on rejection it keeps
   * them. Either way the in-flight flag ends cleared.
   */
  function ApplyAllocate(v: View, s: Store, now: Timestamp): (r: (View, Store))
    ensures !CanAllocate(v) ==> r == (v, s)
    ensures CanAllocate(v) ==>
      var resp := Allocate(s, RequestOf(v.pending), now);
      && r.1 == resp.store
      && (resp.result.Success? ==> r.0 == View(Some(r.1.user), ZeroAttributes, false))
      && (resp.result.Failure? ==> r == (v.(allocating := false), s))
  {
    if !CanAllocate(v) then (v, s)
    else
      var resp := Allocate(s, RequestOf(v.pending), now);
      if resp.result.Success? then (View(Some(resp.result.value), ZeroAttributes, false), resp.store)
      else (v.(allocating := false), resp.store)
  }

  /** Page and server agree on the user. */
  predicate InSync(v: View, s: Store) {
    v.user == Some(s.user)
  }

  /**
   * With the page in sync, an enabled apply is never refused: the server debits
   * exactly the pending total and records one snapshot, and the page takes the
   * server's new user with nothing pending.
   */
  lemma ApplyInSyncSucceeds(v: View, s: Store, now: Timestamp)
    requires InSync(v, s) && CanAllocate(v)
    ensures var resp := Allocate(s, RequestOf(v.pending), now);
      && resp.result.Success?
      && resp.store.user.availablePoints == s.user.availablePoints - TotalPending(v)
      && |resp.store.history| == |s.history| + 1
      && ApplyAllocate(v, s, now) == (View(Some(resp.store.user), ZeroAttributes, false), resp.store)
  {
    assert Deltas(RequestOf(v.pending)) == v.pending;
  }

  /** A valid page has a non-negative pending total, so its user's points are not negative either. */
  lemma ValidPendingNonNegative(v: View)
    requires Valid(v)
    ensures 0 <= TotalPending(v) <= Available(v)
  {
    assert v.pending.Get(Strength) >= 0 && v.pending.Get(Endurance) >= 0;
    assert v.pending.Get(Agility) >= 0 && v.pending.Get(Vitality) >= 0;
  }

  /** One user action on the page. */
  datatype Action = Add(a: Attr) | Remove(a: Attr) | Apply(now: Timestamp)

  /** One click; the apply button does nothing while an apply is in flight. */
  function Step(v: View, s: Store, act: Action): (r: (View, Store))
    ensures !act.Apply? ==> r.1 == s && r.0 == v.(pending := r.0.pending)
    ensures act.Apply? && (v.allocating || !CanAllocate(v)) ==> r == (v, s)
    ensures act.Apply? && !v.allocating && CanAllocate(v) ==>
      r.1 == Allocate(s, RequestOf(v.pending), act.now).store && !r.0.allocating
  {
    match act
    case Add(a) => (AddPoint(v, a), s)
    case Remove(a) => (RemovePoint(v, a), s)
    case Apply(now) => if v.allocating then (v, s) else ApplyAllocate(v, s, now)
  }

  function Run(v: View, s: Store, acts: seq<Action>): (View, Store)
    decreases |acts|
  {
    if acts == [] then (v, s)
    else
      var next := Step(v, s, acts[0]);
      Run(next.0, next.1, acts[1..])
  }

  /** An enabled apply on a valid, in-sync page yields a valid, in-sync page with nothing pending. */
  lemma EnabledApplyKeepsPageValid(v: View, s: Store, now: Timestamp)
    requires Valid(v) && InSync(v, s) && CanAllocate(v)
    ensures var r := ApplyAllocate(v, s, now);
      Valid(r.0) && InSync(r.0, r.1) && TotalPending(r.0) == 0
  {
    ApplyInSyncSucceeds(v, s, now);
    var u' := Allocate(s, RequestOf(v.pending), now).store.user;
    assert u'.availablePoints >= 0;
    ZeroPendingIsValid(u');
  }

  /** A loaded user with non-negative points and nothing pending is a valid page. */
  lemma ZeroPendingIsValid(u: User)
    requires u.availablePoints >= 0
    ensures Valid(View(Some(u), ZeroAttributes, false)) && TotalPending(View(Some(u), ZeroAttributes, false)) == 0
  {
  }

  /** Every single click keeps a valid, in-sync page valid and in sync. */
  lemma StepKeepsPageValid(v: View, s: Store, act: Action)
    requires Valid(v) && InSync(v, s)
    ensures Valid(Step(v, s, act).0) && InSync(Step(v, s, act).0, Step(v, s, act).1)
  {
    match act
    case Add(a) =>
      assert Step(v, s, act) == (AddPoint(v, a), s);
    case Remove(a) =>
      assert Step(v, s, act) == (RemovePoint(v, a), s);
    case Apply(now) =>
      if v.allocating {
        assert Step(v, s, act) == (v, s);
      } else if CanAllocate(v) {
        assert Step(v, s, act) == ApplyAllocate(v, s, now);
        EnabledApplyKeepsPageValid(v, s, now);
      } else {
        assert Step(v, s, act) == (v, s);
      }
  }

  /**
   * From a valid page in sync with the server, any sequence of clicks keeps the
   * page valid and in sync, so the displayed remaining points never go negative
   * and neither do the server's points.
   */
  lemma {:induction false} RunKeepsPageValid(v: View, s: Store, acts: seq<Action>)
    requires Valid(v) && InSync(v, s)
    ensures var r := Run(v, s, acts);
      Valid(r.0) && InSync(r.0, r.1) && Remaining(r.0) >= 0 && r.1.user.availablePoints >= 0
    decreases |acts|
  {
    if acts == [] {
      ValidPendingNonNegative(v);
    } else {
      StepKeepsPageValid(v, s, acts[0]);
      var next := Step(v, s, acts[0]);
      RunKeepsPageValid(next.0, next.1, acts[1..]);
    }
  }

  /**
   * While the in-flight flag is set nothing ever reaches the server: the store
   * is left as it was and the flag stays set, whatever is clicked.
   */
  lemma {:induction false} RunWhileAllocating(v: View, s: Store, acts: seq<Action>)
    requires v.allocating
    ensures Run(v, s, acts).1 == s && Run(v, s, acts).0.allocating
    decreases |acts|
  {
    if acts != [] {
      var next := Step(v, s, acts[0]);
      assert next.1 == s && next.0.allocating by {
        match acts[0]
        case Add(a) =>
        case Remove(a) =>
        case Apply(now) =>
      }
      RunWhileAllocating(next.0, next.1, acts[1..]);
    }
  }

  /** As the page is written, no sequence of clicks ever allocates anything. */
  lemma AsWrittenNeverAllocates(user: Option<User>, s: Store, acts: seq<Action>)
    ensures Run(InitialAsWritten(user), s, acts).1 == s
  {
    RunWhileAllocating(InitialAsWritten(user), s, acts);
  }

  /**
   * With the flag starting cleared, one "+" on strength and then "Apply" by a
   * user with a spare point reaches the server: one point moves into strength,
   * and the page ends in sync with nothing pending.
   */
  lemma AddThenApplyAllocates(s: Store, now: Timestamp)
    requires s.user.availablePoints >= 1
    ensures var r := Run(Initial(Some(s.user)), s, [Add(Strength), Apply(now)]);
      && r.1.user.attributes.strength == s.user.attributes.strength + 1
      && r.1.user.availablePoints == s.user.availablePoints - 1
      && InSync(r.0, r.1) && TotalPending(r.0) == 0
  {
    var v0 := Initial(Some(s.user));
    var v1 := AddPoint(v0, Strength);
    assert Step(v0, s, Add(Strength)) == (v1, s);
    assert v1.pending.Get(Strength) == 1 && TotalPending(v1) == 1 && !v1.allocating;
    ApplyInSyncSucceeds(v1, s, now);
    var acts := [Add(Strength), Apply(now)];
    assert acts[1..] == [Apply(now)];
    assert Run(v0, s, acts) == Run(v1, s, [Apply(now)]);
    assert [Apply(now)][1..] == [];
  }
}

=== FILE: storage.dfy ===
/**
 * The abstract store one request runs against: the caller's user document,
 * the task collection keyed by id, and the attribute-history collection in
 * insertion order.
 */
module Storage {
  import opened Wrappers
  import opened UserModel
  import opened TaskModel
  import opened HistoryModel

  /** The error kinds a handler answers with. */
  datatype Error =
    | NotFound               // 404 "Task not found"
    | AlreadyCompleted       // 400 "Already completed"
    | InsufficientPoints     // 400 "Not enough points"
    | Invalid(paths: set<Path>)  // 400 schema validation failure
    | DuplicateId            // 400 duplicate key on insert

  datatype Store = Store(user: User, tasks: map<TaskId, Task>, history: seq<Snapshot>)

  /** The store after a request, with what the request answered. */
  datatype Response<T> = Response(store: Store, result: Result<T, Error>)

  /** `id` names a task of the caller. */
  predicate Owns(s: Store, id: TaskId) {
    id in s.tasks && s.tasks[id].owner == s.user.id
  }

  /** The ids of `uid`'s completed tasks. */
  function CompletedIds(tasks: map<TaskId, Task>, uid: UserId): set<TaskId> {
    set id | id in tasks && tasks[id].owner == uid && tasks[id].completed
  }

  /** The number of `uid`'s completed tasks (`countDocuments({userId, completed: true})`). */
  function CompletedCount(tasks: map<TaskId, Task>, uid: UserId): (n: nat)
    ensures n <= |tasks|
    ensures n == 0 <==> forall id :: id in tasks && tasks[id].owner == uid ==> !tasks[id].completed
  {
    SubsetSize(CompletedIds(tasks, uid), tasks.Keys);
    NoCompletedIds(tasks, uid);
    |CompletedIds(tasks, uid)|
  }

  lemma NoCompletedIds(tasks: map<TaskId, Task>, uid: UserId)
    ensures CompletedIds(tasks, uid) == {} <==> forall id :: id in tasks && tasks[id].owner == uid ==> !tasks[id].completed
  {
    var ids := CompletedIds(tasks, uid);
    if ids != {} {
      var id :| id in ids;
      assert id in tasks && tasks[id].owner == uid && tasks[id].completed;
    } else {
      forall id | id in tasks && tasks[id].owner == uid
        ensures !tasks[id].completed
      {
        assert id !in ids;
      }
    }
  }

  lemma {:induction false} SubsetSize<T>(a: set<T>, b: set<T>)
    requires a <= b
    ensures |a| <= |b|
    decreases |b|
  {
    if a != {} {
      var x :| x in a;
      SubsetSize(a - {x}, b - {x});
    }
  }
}

=== FILE: task_model.dfy ===
/**
 * The task ("mission") record of `server/models/Task.js`: the two enum
 * fields with their defaults, the required non-negative reward and the
 * completion fields, and the validation a new document goes through.
 */
module TaskModel {
  import opened Wrappers
  import opened Clock
  import opened UserModel

  type TaskId = nat

  /** The `type` enum; `PlainTask` is the value spelled "task". */
  datatype TaskType = PlainTask | Goal | Activity | Daily {
    function Name(): string {
      match this
      case PlainTask => "task"
      case Goal => "goal"
      case Activity => "activity"
      case Daily => "daily"
    }
  }

  /** The `difficulty` enum. */
  datatype Difficulty = Easy | Medium | Hard | Extreme {
    function Name(): string {
      match this
      case Easy => "easy"
      case Medium => "medium"
      case Hard => "hard"
      case Extreme => "extreme"
    }
  }

  /** The enum member spelled `s`, if any. */
  function ParseTaskType(s: string): (r: Option<TaskType>)
    ensures r.Some? ==> r.value.Name() == s
  {
    if s == "task" then Some(PlainTask)
    else if s == "goal" then Some(Goal)
    else if s == "activity" then Some(Activity)
    else if s == "daily" then Some(Daily)
    else None
  }

  /** The enum member spelled `s`, if any. */
  function ParseDifficulty(s: string): (r: Option<Difficulty>)
    ensures r.Some? ==> r.value.Name() == s
  {
    if s == "easy" then Some(Easy)
    else if s == "medium" then Some(Medium)
    else if s == "hard" then Some(Hard)
    else if s == "extreme" then Some(Extreme)
    else None
  }

  /** Every enum member is accepted under its own spelling, and only under it. */
  lemma EnumSpellingsRoundTrip(t: TaskType, d: Difficulty, s: string)
    ensures ParseTaskType(t.Name()) == Some(t)
    ensures ParseDifficulty(d.Name()) == Some(d)
    ensures ParseTaskType(s) == Some(t) <==> s == t.Name()
    ensures ParseDifficulty(s) == Some(d) <==> s == d.Name()
  {
  }

  /** A stored task document. */
  datatype Task = Task(
    id: TaskId,
    owner: UserId,
    name: string,
    kind: TaskType,
    difficulty: Difficulty,
    xpReward: int,
    deadline: Option<Timestamp>,
    completed: bool,
    completedAt: Option<Timestamp>,
    createdAt: Timestamp)

  /** The fields a creation request may carry; `None` is an omitted field. */
  datatype TaskInput = TaskInput(
    name: Option<string>,
    kind: Option<string>,
    difficulty: Option<string>,
    xpReward: Option<int>,
    deadline: Option<Timestamp>,
    completed: Option<bool>,
    completedAt: Option<Timestamp>)

  /** The schema paths that can fail validation. */
  datatype Path = NamePath | TypePath | DifficultyPath | RewardPath

  /** The schema's constraints on a stored task. */
  predicate WellFormed(t: Task) {
    t.name != [] && t.xpReward >= 0
  }

  /** The paths of `input` that break a schema constraint (required, enum or min). */
  function Violations(input: TaskInput): (v: set<Path>)
    ensures NamePath in v <==> input.name.None? || input.name.value == []
    ensures TypePath in v <==> input.kind.Some? && ParseTaskType(input.kind.value).None?
    ensures DifficultyPath in v <==> input.difficulty.Some? && ParseDifficulty(input.difficulty.value).None?
    ensures RewardPath in v <==> input.xpReward.None? || input.xpReward.value < 0
  {
    (if input.name.None? || input.name.value == [] then {NamePath} else {})
    + (if input.kind.Some? && ParseTaskType(input.kind.value).None? then {TypePath} else {})
    + (if input.difficulty.Some? && ParseDifficulty(input.difficulty.value).None? then {DifficultyPath} else {})
    + (if input.xpReward.None? || input.xpReward.value < 0 then {RewardPath} else {})
  }

  /**
   * The document built from `input` for `owner`: omitted enum fields take
   * their defaults ("task", "medium"), an omitted completion flag is false,
   * and any violated constraint rejects the whole document.
   */
  function NewTask(id: TaskId, owner: UserId, input: TaskInput, now: Timestamp): (r: Result<Task, set<Path>>)
    ensures r.Failure? <==> Violations(input) != {}
    ensures r.Failure? ==> r.error == Violations(input)
    ensures r.Success? ==> WellFormed(r.value)
    ensures r.Success? ==> r.value.id == id && r.value.owner == owner && r.value.createdAt == now
    ensures r.Success? ==> Some(r.value.name) == input.name && r.value.deadline == input.deadline
    ensures r.Success? ==> r.value.kind.Name() == input.kind.GetOr("task")
    ensures r.Success? ==> r.value.difficulty.Name() == input.difficulty.GetOr("medium")
    ensures r.Success? ==> Some(r.value.xpReward) == input.xpReward
    ensures r.Success? ==> r.value.completed == input.completed.GetOr(false)
    ensures r.Success? ==> r.value.completedAt == input.completedAt
  {
    var bad := Violations(input);
    if bad != {} then Failure(bad)
    else
      Success(Task(
        id, owner, input.name.value,
        ParseTaskType(input.kind.GetOr("task")).value,
        ParseDifficulty(input.difficulty.GetOr("medium")).value,
        input.xpReward.value, input.deadline,
        input.completed.GetOr(false), input.completedAt, now))
  }

  /** A request that names the task and a valid reward and nothing else yields a fresh, uncompleted "task" of medium difficulty. */
  lemma NewTaskDefaults(id: TaskId, owner: UserId, name: string, reward: int, now: Timestamp)
    requires name != [] && reward >= 0
    ensures
      var r := NewTask(id, owner, TaskInput(Some(name), None, None, Some(reward), None, None, None), now);
      && r.Success?
      && r.value.kind == PlainTask && r.value.difficulty == Medium
      && !r.value.completed && r.value.completedAt.None?
  {
  }
}

=== FILE: task_routes.dfy ===
/**
 * The task handlers of `server/routes/tasks.js` that touch progression:
 * completing a task (`POST /:id/complete`), listing with the optional
 * `completed` and `type` filters (`GET /`), and inserting a new task (`POST /`).
 */
module TaskRoutes {
  import opened Wrappers
  import opened Clock
  import opened UserModel
  import opened TaskModel
  import opened Leveling
  import opened Badges
  import opened Storage

  /** The body of a successful completion. */
  datatype Completion = Completion(task: Task, user: User, leveledUp: bool, xpGained: int)

  /** The user after the leveling loop, before the badge rules. */
  function Progressed(u: User, reward: int): (r: User)
    requires CanLevel(u.level, u.xpToNextLevel)
    ensures r.id == u.id && r.attributes == u.attributes && r.badges == u.badges
    ensures Progress(r.xp, r.level, r.xpToNextLevel, r.availablePoints)
         == LevelUp(u.xp + reward, u.level, u.xpToNextLevel, u.availablePoints)
  {
    var p := LevelUp(u.xp + reward, u.level, u.xpToNextLevel, u.availablePoints);
    u.(xp := p.xp, level := p.level, xpToNextLevel := p.xpToNextLevel, availablePoints := p.availablePoints)
  }

  /**
   * Completes the caller's task `id` at instant `now`: fails with `NotFound` for
   * a task the caller does not own and with `AlreadyCompleted` for a completed
   * one, changing nothing; otherwise marks the task completed, runs the leveling
   * loop on the task's reward and then the badge rules on the updated user.
   */
  function Complete(s: Store, id: TaskId, now: Timestamp): (resp: Response<Completion>)
    requires CanLevel(s.user.level, s.user.xpToNextLevel)
    ensures resp.result == Failure(NotFound) <==> !Owns(s, id)
    ensures resp.result == Failure(AlreadyCompleted) <==> Owns(s, id) && s.tasks[id].completed
    ensures resp.result.Failure? ==> resp.store == s
    ensures resp.result.Success? <==> Owns(s, id) && !s.tasks[id].completed
    ensures resp.result.Success? ==>
      var c, u, u' := resp.result.value, s.user, resp.store.user;
      && c.task == s.tasks[id].(completed := true, completedAt := Some(now))
      && resp.store.tasks == s.tasks[id := c.task]
      && resp.store.history == s.history
      && c.user == u'
      && c.xpGained == s.tasks[id].xpReward
      && u'.id == u.id && u'.attributes == u.attributes
      && u'.level >= u.level
      && (c.leveledUp <==> u'.level > u.level)
      && u'.availablePoints == u.availablePoints + PointsPerLevel * (u'.level - u.level)
      && u.xp + c.xpGained == u'.xp + Consumed(u.xpToNextLevel, u.level, u'.level - u.level)
      && u'.xp < u'.xpToNextLevel
      && (u'.level > u.level ==> u'.xpToNextLevel == XpForLevel(u'.level + 1))
      && Progress(u'.xp, u'.level, u'.xpToNextLevel, u'.availablePoints)
         == LevelUp(u.xp + c.xpGained, u.level, u.xpToNextLevel, u.availablePoints)
      && u'.badges == Evaluate(u.badges, CompletedCount(resp.store.tasks, u.id), u'.level, u.attributes.strength)
      && u.badges <= u'.badges
      && (FirstQuest in u'.badges <==> FirstQuest in u.badges || CompletedCount(resp.store.tasks, u.id) == 1)
      && (Level5 in u'.badges <==> Level5 in u.badges || u'.level >= 5)
      && (Strength5 in u'.badges <==> Strength5 in u.badges || u.attributes.strength >= 5)
  {
    if !Owns(s, id) then Response(s, Failure(NotFound))
    else if s.tasks[id].completed then Response(s, Failure(AlreadyCompleted))
    else
      var task := s.tasks[id];
      var done := task.(completed := true, completedAt := Some(now));
      var tasks := s.tasks[id := done];
      var leveled := Progressed(s.user, task.xpReward);
      var count := CompletedCount(tasks, s.user.id);
      var u := leveled.(badges := Evaluate(leveled.badges, count, leveled.level, leveled.attributes.strength));
      Response(Store(u, tasks, s.history), Success(Completion(done, u, leveled.level > s.user.level, task.xpReward)))
  }

  /** Completing a task adds exactly that task to the caller's completed count. */
  lemma CompletionCountsTheTask(s: Store, id: TaskId, now: Timestamp)
    requires CanLevel(s.user.level, s.user.xpToNextLevel)
    requires Owns(s, id) && !s.tasks[id].completed
    ensures CompletedIds(Complete(s, id, now).store.tasks, s.user.id) == CompletedIds(s.tasks, s.user.id) + {id}
    ensures CompletedCount(Complete(s, id, now).store.tasks, s.user.id) == CompletedCount(s.tasks, s.user.id) + 1
  {
    var tasks := Complete(s, id, now).store.tasks;
    assert id !in CompletedIds(s.tasks, s.user.id);
    assert CompletedIds(tasks, s.user.id) == CompletedIds(s.tasks, s.user.id) + {id};
  }

  /** The caller's first completion unlocks `first_quest`. */
  lemma FirstCompletionUnlocksFirstQuest(s: Store, id: TaskId, now: Timestamp)
    requires CanLevel(s.user.level, s.user.xpToNextLevel)
    requires Owns(s, id) && !s.tasks[id].completed
    requires CompletedCount(s.tasks, s.user.id) == 0
    ensures FirstQuest in Complete(s, id, now).store.user.badges
  {
    CompletionCountsTheTask(s, id, now);
  }

  /**
   * `first_quest` needs a completed count of exactly 1, so a caller who already
   * holds a completed task (one inserted as completed, say) and lacks the badge
   * does not get it from the next completion.
   */
  lemma EarlierCompletedTaskSkipsFirstQuest(s: Store, id: TaskId, now: Timestamp)
    requires CanLevel(s.user.level, s.user.xpToNextLevel)
    requires Owns(s, id) && !s.tasks[id].completed
    requires CompletedCount(s.tasks, s.user.id) >= 1 && FirstQuest !in s.user.badges
    ensures Complete(s, id, now).result.Success?
    ensures FirstQuest !in Complete(s, id, now).store.user.badges
  {
    CompletionCountsTheTask(s, id, now);
  }

  /** Completing the same task a second time fails and leaves the store, so xp, level, points and badges, as the first completion left them. */
  lemma NoDoubleReward(s: Store, id: TaskId, now: Timestamp, later: Timestamp)
    requires CanLevel(s.user.level, s.user.xpToNextLevel)
    requires Complete(s, id, now).result.Success?
    ensures var s' := Complete(s, id, now).store;
      CanLevel(s'.user.level, s'.user.xpToNextLevel)
      && Complete(s', id, later) == Response(s', Failure(AlreadyCompleted))
  {
  }

  /** A zero-reward completion by a user at rest leaves xp, level, threshold and points unchanged and reports no level-up. */
  lemma ZeroRewardCompletion(s: Store, id: TaskId, now: Timestamp)
    requires CanLevel(s.user.level, s.user.xpToNextLevel) && s.user.xp < s.user.xpToNextLevel
    requires Owns(s, id) && !s.tasks[id].completed && s.tasks[id].xpReward == 0
    ensures var r := Complete(s, id, now);
      var u' := r.store.user;
      && r.result.Success? && !r.result.value.leveledUp
      && u'.xp == s.user.xp && u'.level == s.user.level
      && u'.xpToNextLevel == s.user.xpToNextLevel && u'.availablePoints == s.user.availablePoints
  {
    ZeroRewardIsNoOp(s.user.xp, s.user.level, s.user.xpToNextLevel, s.user.availablePoints);
  }

  /** The `completed` and `type` query parameters of a task listing. */
  datatype ListQuery = ListQuery(completed: Option<string>, kind: Option<string>)

  /** `t` passes the filter the handler builds from `q` for user `uid`. */
  predicate Matches(t: Task, uid: UserId, q: ListQuery) {
    && t.owner == uid
    && (q.completed.Some? ==> t.completed == (q.completed.value == "true"))
    && (q.kind.Some? && q.kind.value != "" ==> t.kind.Name() == q.kind.value)
  }

  /** The caller's tasks that pass the query's filters. */
  function ListTasks(s: Store, q: ListQuery): (r: set<Task>)
    ensures forall t :: t in r ==> t in s.tasks.Values && t.owner == s.user.id
    ensures forall t ::
      && t in s.tasks.Values && t.owner == s.user.id
      && (q.completed.Some? ==> t.completed == (q.completed == Some("true")))
      && (q.kind.Some? && q.kind != Some("") ==> t.kind.Name() == q.kind.value)
      ==> t in r
    ensures forall t :: t in r && q.completed == Some("true") ==> t.completed
    ensures forall t :: t in r && q.completed.Some? && q.completed != Some("true") ==> !t.completed
    ensures forall t :: t in r && q.kind.Some? && q.kind != Some("") ==> t.kind.Name() == q.kind.value
  {
    set t | t in s.tasks.Values && Matches(t, s.user.id, q)
  }

  /** A `type` value outside the enum selects nothing; an empty one filters nothing. */
  lemma UnknownTypeListsNothing(s: Store, completed: Option<string>, kind: string)
    ensures kind != "" && ParseTaskType(kind).None? ==> ListTasks(s, ListQuery(completed, Some(kind))) == {}
    ensures ListTasks(s, ListQuery(completed, Some(""))) == ListTasks(s, ListQuery(completed, None))
  {
    if kind != "" && ParseTaskType(kind).None? {
      forall t: Task | true
        ensures !Matches(t, s.user.id, ListQuery(completed, Some(kind)))
      {
        EnumSpellingsRoundTrip(t.kind, Medium, kind);
      }
    }
  }

  /** A completed task moves from the `completed=false` listing to the `completed=true` listing. */
  lemma CompletedTaskIsListedAsCompleted(s: Store, id: TaskId, now: Timestamp, kind: Option<string>)
    requires CanLevel(s.user.level, s.user.xpToNextLevel)
    requires Owns(s, id) && !s.tasks[id].completed
    ensures var r := Complete(s, id, now);
      var t := r.result.value.task;
      && r.result.Success?
      && (Matches(s.tasks[id], s.user.id, ListQuery(Some("false"), kind)) ==> s.tasks[id] in ListTasks(s, ListQuery(Some("false"), kind)))
      && (Matches(s.tasks[id], s.user.id, ListQuery(Some("false"), kind)) ==> t in ListTasks(r.store, ListQuery(Some("true"), kind)))
      && t !in ListTasks(r.store, ListQuery(Some("false"), kind))
  {
    var r := Complete(s, id, now);
    assert r.store.tasks[id] == r.result.value.task;
  }

  /**
   * Inserts the task built from `input` under a fresh id, or rejects it. The
   * schema is validated before the insert, so an invalid input is answered with
   * its violations even when the id is taken.
   */
  function CreateTask(s: Store, id: TaskId, input: TaskInput, now: Timestamp): (resp: Response<Task>)
    ensures resp.result.Failure? ==> resp.store == s
    ensures id in s.tasks && Violations(input) == {} ==> resp.result == Failure(DuplicateId)
    ensures NewTask(id, s.user.id, input, now).Failure? ==>
      resp.result == Failure(Invalid(Violations(input)))
    ensures id !in s.tasks && NewTask(id, s.user.id, input, now).Success? ==>
      resp.result == Success(NewTask(id, s.user.id, input, now).value)
    ensures resp.result.Success? ==>
      && resp.result.value.owner == s.user.id && WellFormed(resp.result.value)
      && resp.store == s.(tasks := s.tasks[id := resp.result.value])
  {
    match NewTask(id, s.user.id, input, now)
    case Failure(paths) => Response(s, Failure(Invalid(paths)))
    case Success(t) =>
      if id in s.tasks then Response(s, Failure(DuplicateId))
      else Response(s.(tasks := s.tasks[id := t]), Success(t))
  }
}

=== FILE: user_model.dfy ===
/**
 * The user record of `server/models/User.js`: the four attributes, the
 * schema defaults of a fresh user, and the `xpForLevel` threshold curve
 * `floor(100 * 1.5^(n-1))`, computed here exactly on integers.
 */
module UserModel {
  type UserId = nat

  /** The four attribute names. */
  datatype Attr = Strength | Endurance | Agility | Vitality

  /** Four integer stats, one per attribute; also used for deltas and pending counters. */
  datatype Attributes = Attributes(strength: int, endurance: int, agility: int, vitality: int) {

    function Get(a: Attr): int {
      match a
      case Strength => strength
      case Endurance => endurance
      case Agility => agility
      case Vitality => vitality
    }

    /** This record with attribute `a` replaced by `v`. */
    function With(a: Attr, v: int): (r: Attributes)
      ensures r.Get(a) == v
      ensures forall b :: b != a ==> r.Get(b) == Get(b)
    {
      match a
      case Strength => this.(strength := v)
      case Endurance => this.(endurance := v)
      case Agility => this.(agility := v)
      case Vitality => this.(vitality := v)
    }

    /** The sum of the four values. */
    function Total(): int {
      strength + endurance + agility + vitality
    }

    /** Component-wise sum. */
    function Plus(d: Attributes): Attributes {
      Attributes(strength + d.strength, endurance + d.endurance, agility + d.agility, vitality + d.vitality)
    }
  }

  const ZeroAttributes := Attributes(0, 0, 0, 0)

  /** The progression part of a user document; email, password and display name are not modelled. */
  datatype User = User(
    id: UserId,
    level: int,
    xp: int,
    xpToNextLevel: int,
    attributes: Attributes,
    availablePoints: int,
    badges: seq<string>)

  /** A user document as created with every defaulted field left to its schema default. */
  function NewUser(id: UserId): (u: User)
    ensures u.id == id
    ensures u.level == 1 && u.xp == 0
    ensures u.xpToNextLevel == XpForLevel(1)
    ensures forall a :: u.attributes.Get(a) == 0
    ensures u.availablePoints == 0 && u.badges == []
  {
    User(id, 1, 0, 100, ZeroAttributes, 0, [])
  }

  /** `b` raised to the power `e`. */
  function Pow(b: nat, e: nat): (r: nat)
    ensures b >= 1 ==> r >= 1
  {
    if e == 0 then 1 else b * Pow(b, e - 1)
  }

  /**
   * `floor(100 * 1.5^(n-1))` as an exact integer: `100 * 3^(n-1) / 2^(n-1)` for
   * n >= 1, and `100 * 2^(1-n) / 3^(1-n)` (the same real, floored) below 1.
   */
  function XpForLevel(n: int): (r: nat)
    ensures n >= 1 ==> r * Pow(2, n - 1) <= 100 * Pow(3, n - 1) < (r + 1) * Pow(2, n - 1)
    ensures n < 1 ==> r * Pow(3, 1 - n) <= 100 * Pow(2, 1 - n) < (r + 1) * Pow(3, 1 - n)
  {
    if n >= 1 then FloorQuotient(100 * Pow(3, n - 1), Pow(2, n - 1))
    else FloorQuotient(100 * Pow(2, 1 - n), Pow(3, 1 - n))
  }

  /** Integer division floors: the quotient is the largest `q` with `q * b <= a`. */
  function FloorQuotient(a: nat, b: nat): (q: nat)
    requires b > 0
    ensures q * b <= a < (q + 1) * b
  {
    a / b
  }

  lemma {:induction false} PowThreeDominatesTwo(k: nat)
    ensures Pow(3, k) >= Pow(2, k)
  {
    if k > 0 {
      PowThreeDominatesTwo(k - 1);
    }
  }

  /** Floor division is at least `c` when the dividend is at least `c` divisors. */
  lemma DivAtLeast(a: int, b: int, c: int)
    requires b > 0 && a >= c * b
    ensures a / b >= c
  {
    var q := a / b;
    assert q * b + a % b == a && a % b < b;
    assert q * b > (c - 1) * b;
    MulMonotone(q, c - 1, b);
  }

  lemma MulMonotone(x: int, y: int, k: int)
    requires k >= 0
    ensures x <= y ==> x * k <= y * k
  {
    assert y * k - x * k == (y - x) * k;
  }

  /** From level 1 on, a threshold is at least the first one, 100. */
  lemma XpForLevelAtLeast100(n: int)
    requires n >= 1
    ensures XpForLevel(n) >= 100
  {
    PowThreeDominatesTwo(n - 1);
    DivAtLeast(100 * Pow(3, n - 1), Pow(2, n - 1), 100);
  }

  /** Multiplying a quotient of at least 100 by 3/2 adds at least 50 after flooring. */
  lemma ThreeHalvesStep(a: int, b: int)
    requires b > 0 && a / b >= 100
    ensures (3 * a) / (2 * b) >= a / b + 50
  {
    var q := a / b;
    assert q * b <= a;
    assert q * b >= 100 * b;
    assert 3 * a >= 2 * (q * b) + q * b;
    assert (q + 50) * (2 * b) == 2 * (q * b) + 100 * b;
    DivAtLeast(3 * a, 2 * b, q + 50);
  }

  /** Each level's threshold exceeds the previous one by at least 50: the curve grows by half of at least 100. */
  lemma XpForLevelStep(n: int)
    requires n >= 1
    ensures XpForLevel(n + 1) >= XpForLevel(n) + 50
  {
    var a, b := 100 * Pow(3, n - 1), Pow(2, n - 1);
    XpForLevelAtLeast100(n);
    assert 100 * Pow(3, n) == 3 * a;
    assert Pow(2, n) == 2 * b;
    ThreeHalvesStep(a, b);
  }

  /** The threshold curve is strictly increasing from level 1 on. */
  lemma {:induction false} XpForLevelIncreasing(m: int, n: int)
    requires 1 <= m < n
    ensures XpForLevel(m) < XpForLevel(n)
  {
    XpForLevelStep(n - 1);
    if m < n - 1 {
      XpForLevelIncreasing(m, n - 1);
    }
  }

  /** The first thresholds of the curve: 100, 150, 225, 337, 506. */
  lemma XpForLevelValues()
    ensures XpForLevel(1) == 100
    ensures XpForLevel(2) == 150
    ensures XpForLevel(3) == 225
    ensures XpForLevel(4) == 337
    ensures XpForLevel(5) == 506
  {
    assert Pow(3, 2) == 9 && Pow(2, 2) == 4;
    assert Pow(3, 3) == 27 && Pow(2, 3) == 8;
    assert Pow(3, 4) == 81 && Pow(2, 4) == 16;
  }
}

=== FILE: user_routes.dfy ===
/**
 * The allocation handler of `server/routes/user.js` (`PUT /attributes`):
 * spending available points on the four attributes, which appends a history
 * snapshot.
 */
module UserRoutes {
  import opened Wrappers
  import opened Clock
  import opened UserModel
  import opened HistoryModel
  import opened Storage

  /** The allocation body; `None` is an omitted field. */
  datatype AllocationRequest = AllocationRequest(
    strength: Option<int>, endurance: Option<int>, agility: Option<int>, vitality: Option<int>)
  {
    function Field(a: Attr): Option<int> {
      match a
      case Strength => strength
      case Endurance => endurance
      case Agility => agility
      case Vitality => vitality
    }
  }

  /** The four deltas, an omitted one counting as 0. */
  function Deltas(req: AllocationRequest): (d: Attributes)
    ensures forall a :: d.Get(a) == (if req.Field(a).Some? then req.Field(a).value else 0)
  {
    Attributes(req.strength.GetOr(0), req.endurance.GetOr(0), req.agility.GetOr(0), req.vitality.GetOr(0))
  }

  /**
   * Spends points: rejected with `InsufficientPoints` when the deltas sum to
   * more than the available points, changing nothing; otherwise each attribute
   * grows by its delta, the sum is debited, and one snapshot of the new
   * attributes is appended, even when every delta is 0.
   */
  function Allocate(s: Store, req: AllocationRequest, now: Timestamp): (resp: Response<User>)
    ensures resp.result == Failure(InsufficientPoints) <==> Deltas(req).Total() > s.user.availablePoints
    ensures resp.result.Failure? <==> Deltas(req).Total() > s.user.availablePoints
    ensures resp.result.Failure? ==> resp.store == s
    ensures resp.result.Success? ==>
      var d, u, u' := Deltas(req), s.user, resp.store.user;
      && resp.result.value == u'
      && (forall a :: u'.attributes.Get(a) == u.attributes.Get(a) + d.Get(a))
      && u'.availablePoints == u.availablePoints - d.Total()
      && u'.availablePoints >= 0
      && u'.attributes.Total() + u'.availablePoints == u.attributes.Total() + u.availablePoints
      && u'.id == u.id && u'.level == u.level && u'.xp == u.xp
      && u'.xpToNextLevel == u.xpToNextLevel && u'.badges == u.badges
      && resp.store.tasks == s.tasks
      && resp.store.history == s.history + [SnapshotOf(u', now)]
  {
    var d := Deltas(req);
    var total := d.Total();
    if total > s.user.availablePoints then Response(s, Failure(InsufficientPoints))
    else
      var u := s.user.(attributes := s.user.attributes.Plus(d), availablePoints := s.user.availablePoints - total);
      Response(Store(u, s.tasks, s.history + [SnapshotOf(u, now)]), Success(u))
  }

  /** Spending exactly the available points succeeds, empties them and records one snapshot of the new totals. */
  lemma AllocateEverything(s: Store, req: AllocationRequest, now: Timestamp)
    requires Deltas(req).Total() == s.user.availablePoints
    ensures Allocate(s, req, now).result.Success?
    ensures Allocate(s, req, now).store.user.availablePoints == 0
    ensures Allocate(s, req, now).store.history
         == s.history + [Snapshot(s.user.id, Allocate(s, req, now).store.user.attributes, now)]
  {
  }

  /** An empty request still succeeds, leaves the user as it was and still appends a snapshot of the unchanged attributes. */
  lemma EmptyAllocationStillSnapshots(s: Store, now: Timestamp)
    requires s.user.availablePoints >= 0
    ensures Allocate(s, AllocationRequest(None, None, None, None), now)
         == Response(Store(s.user, s.tasks, s.history + [Snapshot(s.user.id, s.user.attributes, now)]), Success(s.user))
  {
  }
}

=== FILE: wrappers.dfy ===
/** Failure-compatible wrappers shared by the whole model. */
module Wrappers {

  /** A value that may be absent: an omitted request field or query parameter. */
  datatype Option<+T> = None | Some(value: T) {

    /** The carried value, or `default` when absent (JavaScript's `x = default` destructuring). */
    function GetOr(default: T): T {
      match this
      case Some(v) => v
      case None => default
    }
  }

  /** The outcome of a request handler: a value or a typed error. */
  datatype Result<+R, +E> = Success(value: R) | Failure(error: E)
}
